=== FILE: README.md ===
# Directus3D rendering core: a Dafny model

This project models four small, sequential parts of the Directus3D engine
and proves properties of them:

- **the event dispatcher** (`EventSystem`): an ordered list of
  `(eventID, address)` subscribers, with clear, append, remove-first-match
  and call-all-matching operations. The engine keeps this list as a
  process-wide static. Here it is a value that every operation takes and
  returns. Calling a subscriber is recorded, so dispatch returns the
  subscribers it would invoke, in order.
- **the full-screen quad** (`FullScreenQuad`): the edge arithmetic with
  C++'s truncating integer division, the six-vertex table with its
  texture coordinates, the sequential index table, and the two
  `CreateBuffer` calls, either of which may fail.
- **the shader-variation data contracts** (`ShaderVariation`,
  `BufferLayout`): the nine texture-presence flags and their getters, and
  the three constant-buffer structs. Each struct is a list of typed
  fields. Field offsets are computed twice: once as C++ lays out the
  struct, once as HLSL packs a `cbuffer` into 16-byte registers. The model
  proves that the two layouts coincide and that each size is a multiple
  of 16.
- **the debug shader's draw protocol** (`DebugShader`): `Load` and
  `Render` return traces of device calls. Two small interpreters give
  those traces a meaning, and they reject a trace that breaks the
  Map/Unmap discipline. The matrix product is a parameter, so the
  multiplication order `world x (view x projection)` is checked without
  any matrix arithmetic.

Supporting modules: `Wrappers` holds `Option`. `Ints` holds C++ `int` and
`unsigned int` (`int32`, `uint32`), division that truncates toward zero,
and the signed-to-unsigned conversion.

## Model

| member | source | states |
|---|---|---|
| EventSystem.Clear | Runtime/EventSystem/EventSystem.cpp:36-40 | After `Clear` the subscriber list is empty. |
| EventSystem.AddSubscriber | Runtime/EventSystem/EventSystem.cpp:42-45 | The subscriber is appended at the end and the old list is kept as the prefix. The multiset gains exactly one copy, so an equal subscriber already present is duplicated, not rejected. |
| EventSystem.FirstMatch | Runtime/EventSystem/EventSystem.cpp:49-58 | The scan finds the first position where both eventID and address match. If it finds none, no position matches. |
| EventSystem.RemoveSubscriber | Runtime/EventSystem/EventSystem.cpp:47-59 | With no match, the list is unchanged. Otherwise exactly the first match is erased and the rest keep their order. The length drops by at most one. |
| EventSystem.RemoveSubscriberMultiset | Runtime/EventSystem/EventSystem.cpp:52-55 | Removal takes away one copy of `(eventID, address)` if present and changes no other subscriber's count. A subscriber with the same address but another event is never removed. |
| EventSystem.RemoveSubscriberKeepsLaterDuplicate | Runtime/EventSystem/EventSystem.cpp:54-55 | When two subscribers match, the later one survives, shifted down by one position. |
| EventSystem.RemoveUndoesAdd | Runtime/EventSystem/EventSystem.cpp:42-59 | Removing a subscriber that was just appended, and was not present before, restores the original list. |
| EventSystem.RemoveSubscriberOtherEvents | Runtime/EventSystem/EventSystem.cpp:47-70 | Removal does not change which subscribers any other event invokes. |
| EventSystem.Invoked | Runtime/EventSystem/EventSystem.cpp:61-70 | Dispatch reaches only subscribers of the given event, never more than the list holds. The address plays no part. |
| EventSystem.InvokedCounts | Runtime/EventSystem/EventSystem.cpp:63-69 | Each subscriber of the event is invoked exactly as many times as it appears in the list. |
| EventSystem.InvokedAppend | Runtime/EventSystem/EventSystem.cpp:63-69 | Dispatch follows list order: dispatching over a concatenation gives the concatenation of the two dispatches. |
| EventSystem.InvokedStep | Runtime/EventSystem/EventSystem.cpp:63-69 | One more list element adds itself to the invocations exactly when its event matches. |
| EventSystem.CallSubscriber | Runtime/EventSystem/EventSystem.cpp:61-70 | The loop over the list records exactly the subscribers `Invoked` specifies, in order. The list is only an input. |
| EventSystem.InvokedAfterAdd | Runtime/EventSystem/EventSystem.cpp:42-70 | A newly added subscriber is invoked last, and only for its own event. |
| Ints.TruncDiv | Runtime/Graphics/FullScreenQuad.cpp:56-62 | C++ `/` on `int` rounds toward zero, and the remainder takes the sign of the dividend. |
| Ints.TruncRem | Runtime/Graphics/FullScreenQuad.cpp:56-62 | The C++ remainder: dividend = quotient x divisor + remainder, with the remainder smaller than the divisor and of the dividend's sign. |
| Ints.ToUnsigned | Runtime/Graphics/Shaders/DebugShader.cpp:59-66 | The `int` vertex count passed to `RenderShader(unsigned int)` becomes an `unsigned int` congruent to it modulo 2^32. |
| Ints.ToUnsignedUnique | Runtime/Graphics/Shaders/DebugShader.cpp:59-66 | That congruence fixes the converted value: it is the only `unsigned int` congruent to the `int`, so a non-negative count reaches the draw unchanged. |
| FullScreenQuad.ComputeEdges | Runtime/Graphics/FullScreenQuad.cpp:55-65 | `right - left == width` and `top - bottom == height` exactly. `left + right` is the truncated remainder of `width` by 2, and `top + bottom` is minus that of `height`, so a positive odd size leaves the extra unit on the right and at the bottom. |
| FullScreenQuad.QuadVertices | Runtime/Graphics/FullScreenQuad.cpp:79-96 | The table has six vertices, all with z = 0. Each texture coordinate is a corner of the unit square, and it selects the vertex's position: u = 0 puts it on the left edge and u = 1 on the right, v = 0 on the top and v = 1 on the bottom. |
| FullScreenQuad.SequentialIndices | Runtime/Graphics/FullScreenQuad.cpp:98-100 | The index table has `n` entries and `indices[i] == i`. |
| FullScreenQuad.Initialize | Runtime/Graphics/FullScreenQuad.cpp:49-149 | The quad always remembers the `graphics` it was given. A null device then returns false with no device call and nothing else changed. Otherwise both counts become 6 and the vertex buffer is created. The index buffer is attempted only after the vertex buffer succeeds. The result is true exactly when both creations succeed. On success the quad holds the vertex table for the requested size and the indices 0..5. A failed creation leaves its own buffer unset; the vertex buffer survives a failed index creation. |
| FullScreenQuad.InitializeFresh | Runtime/Graphics/FullScreenQuad.cpp:34-149 | Starting from the state the constructor sets up, a successful `Initialize` leaves exactly the stored graphics, both counts 6, the vertex table for the size and the indices `[0, 1, 2, 3, 4, 5]`. A failed one never leaves an index buffer. |
| FullScreenQuad.UploadedGeometry | Runtime/Graphics/FullScreenQuad.cpp:74-138 | The vertex buffer is created from the quad's vertex table. When attempted, the index buffer is created from `[0, 1, 2, 3, 4, 5]`. |
| FullScreenQuad.DuplicatedCorners | Runtime/Graphics/FullScreenQuad.cpp:79-96 | Vertex 3 equals vertex 0 (top-left, uv (0,0)). Vertex 5 equals vertex 1 (bottom-right, uv (1,1)). |
| FullScreenQuad.UvMatchesCorner | Runtime/Graphics/FullScreenQuad.cpp:79-96 | Every vertex has z = 0 and sits on a corner. For a non-degenerate size, u = 0 iff x = left, u = 1 iff x = right, v = 0 iff y = top, and v = 1 iff y = bottom. |
| FullScreenQuad.SameWinding | Runtime/Graphics/FullScreenQuad.cpp:79-96 | Both triangles have doubled signed area `-width*height`. That is the same winding, clockwise in y-up coordinates for a positive size. |
| FullScreenQuad.Example800x600 | Runtime/Graphics/FullScreenQuad.cpp:55-80 | For 800 x 600 the edges are -400, 400, 300, -300, and the top-left vertex is (-400, 300, 0) with uv (0, 0). |
| FullScreenQuad.ExampleOddWidth | Runtime/Graphics/FullScreenQuad.cpp:55-59 | Width 801 gives left edge -400 and right edge 401. |
| ShaderVariation.Initialize | Runtime/Graphics/Shaders/ShaderVariation.h:46-57 | The nine flags are taken in the order albedo, roughness, metallic, normal, height, occlusion, emission, mask, cubemap. Each getter returns its own parameter. |
| ShaderVariation.FromGetters | Runtime/Graphics/Shaders/ShaderVariation.h:71-94 | Any nine getter values are realised by some flag record, so every combination is representable. |
| ShaderVariation.FlagsDeterminedByGetters | Runtime/Graphics/Shaders/ShaderVariation.h:71-94 | Two flag records are equal exactly when all nine getters agree. |
| ShaderVariation.Mask | Runtime/Graphics/Shaders/ShaderVariation.h:86-94 | The flags as a permutation key, one bit per flag, are below 2^9. |
| ShaderVariation.FlagsRoundTrip | Runtime/Graphics/Shaders/ShaderVariation.h:71-94 | Decoding a record's key gives back the record, so distinct combinations have distinct keys. |
| ShaderVariation.MaskRoundTrip | Runtime/Graphics/Shaders/ShaderVariation.h:86-94 | Every key below 512 is the key of exactly the record it decodes to. So the 2^9 combinations are exactly the keys. |
| ShaderVariation.PerFrameLayout | Runtime/Graphics/Shaders/ShaderVariation.h:104-117 | The per-frame struct is 256 bytes. Its only matrices are the `cascades` = 3 light view-projections. `lightDir` at 224 and `shadowBias` at 236 share a register. No field straddles a register, and HLSL offsets and size equal the C++ ones. |
| ShaderVariation.PerMaterialLayout | Runtime/Graphics/Shaders/ShaderVariation.h:119-132 | The per-material struct is 64 bytes. The trailing `padding` at 56 fills the last register. No field straddles, and HLSL and C++ layouts agree. |
| ShaderVariation.PerObjectLayout | Runtime/Graphics/Shaders/ShaderVariation.h:135-142 | The per-object struct is 208 bytes. It holds three matrices, with `receiveShadows` at 192 and the `Vector3` padding up to 208. No field straddles, and HLSL and C++ layouts agree. |
| BufferLayout.HlslStart | Runtime/Graphics/Shaders/ShaderVariation.h:105-142 | HLSL moves a field forward by less than one register, only when it would otherwise straddle a boundary, and then to the start of the next register. The field then fits in its register. |
| BufferLayout.EndsAgree | Runtime/Graphics/Shaders/ShaderVariation.h:105-142 | If no C++ field straddles a register, HLSL packing of any prefix of the fields ends where the C++ prefix ends. |
| BufferLayout.LayoutsCoincide | Runtime/Graphics/Shaders/ShaderVariation.h:105-142 | If no C++ field straddles a register, every field has the same offset in HLSL and C++. A `sizeof` that is a multiple of 16 is then also the HLSL buffer size. |
| BufferLayout.StraddleMoves | Runtime/Graphics/Shaders/ShaderVariation.h:105-142 | Conversely, a straddling field is placed later by HLSL than by C++. |
| DebugShader.Load | Runtime/Graphics/Shaders/DebugShader.cpp:33-57 | `Load` creates exactly one shader, as its first call, and exactly one constant buffer of `sizeof(DefaultBuffer)`, as its last. On a freshly constructed debug shader (no shader, no buffer) every call is accepted. They leave a shader loaded from the path with the `PositionColor` layout and exactly one anisotropic/wrap/always sampler, alongside the buffer. That state has both objects `Render` needs. |
| DebugShader.LoadConfiguresShader | Runtime/Graphics/Shaders/DebugShader.cpp:44-57 | Loading again gives the same result: from any prior state, `Load` runs without a rejected call. It leaves a shader loaded from the path with the `PositionColor` layout, exactly one anisotropic/wrap/always sampler, and one constant buffer of `sizeof(DefaultBuffer)`. |
| DebugShader.DefaultBufferLayout | Runtime/Graphics/Shaders/DebugShader.cpp:56-75 | The buffer holding the two written matrices is 128 bytes, a whole number of registers, with no field straddling. |
| DebugShader.SetShaderBuffers | Runtime/Graphics/Shaders/DebugShader.cpp:68-82 | The debug shader must hold the constant buffer `Load` creates. The calls map and unmap the buffer exactly once, with both writes in between, so they run without a violation on an unmapped context. They leave the buffer holding `view x projection` and `world x (view x projection)`, bound to vertex slot 0, and the depth map bound to pixel slot 0. Nothing else changes. Both binds come after the Unmap, with no Map or Unmap after them, and the vertex-slot bind precedes the depth-map bind. |
| DebugShader.RenderShader | Runtime/Graphics/Shaders/DebugShader.cpp:84-88 | The debug shader must hold the shader `Load` creates. Setting the shader and drawing `vertexCount` vertices from 0 records exactly one draw, which sees the context as it stood. The calls make no Map or Unmap, and on a context whose buffer is still mapped the draw is rejected. |
| DebugShader.Render | Runtime/Graphics/Shaders/DebugShader.cpp:59-66 | On a loaded debug shader, `Render` makes exactly one Map and one Unmap and runs without a violation on an unmapped context. It ends in exactly one draw of the converted `vertexCount` from vertex 0. That draw sees `view x projection` and `world x (view x projection)`, the buffer on vertex slot 0, and the depth map as the one new pixel resource, at slot 0. The binds come after the Unmap, and every buffer and resource call comes before the shader is set. |

## Left out

- Device and context calls are abstract. `CreateBuffer`'s outcome is an input. Binding, mapping and drawing are trace events. GPU memory, byte widths and strides are not modelled.
- Float arithmetic is not modelled. Quad coordinates are integers, exact for sizes below 2^24. Matrices are a type parameter with the product as a parameter.
- The subscriber callback is recorded, not run. Re-entrant changes to the list during dispatch are out of scope. So is the list being a global.
- `Subscriber` is modelled as its event and callback address alone. `shared_ptr` identity and the callback object are not modelled.
- FullScreenQuad.Initialize: on either failure path the function returns before its `delete[]`s (lines 143-147), so the CPU-side arrays are not released. Memory is not modelled, and the model makes no claim about cleanup.
- FullScreenQuad.Initialize: a null `graphics` pointer, which the C++ code dereferences on line 52, is not modelled. The handle is always a real `Graphics` object.
- ShaderVariation.Initialize: its body is in ShaderVariation.cpp, which is not part of this model. The model takes each parameter to be stored in the like-named `m_has…` member that the getters on lines 71-79 return. The `Context*` parameter (line 47) is not modelled either.
- `FullScreenQuad::SetBuffers` is not modelled. It is three fixed binding calls with no logic to state.
- The header declaring `DefaultBuffer` (DebugShader.h) is not part of this model. Its layout is taken to be the two matrices the .cpp writes.
- DebugShader.Load: `RunSetup` enforces only the dependencies between setup calls (a shader before it is loaded or given a sampler, code before its input layout). With the creation counts and the first and last call, the contract fixes what is created and when. It does not fix the relative order of the layout and sampler calls.
- DebugShader.Render: through SetShaderBuffers and RenderShader it also dereferences `m_graphics` (DebugShader.cpp:81, 87). That pointer is set by `Load` (line 46) together with the shader and buffer. It is not modelled separately: the requirement that the debug shader be loaded stands in for it.
- DebugShader.LoadConfiguresShader: `Load` discards the results of shader loading and buffer creation, so failures there are not modelled. Every call is taken to succeed.
- The map/unmap rules the interpreter enforces are those `D3D11ConstantBuffer` implies. That class's code is not part of this model.
- Shader-variation behaviour outside the header is not modelled: define generation, compilation, buffer updates and texture slots. Its code is not part of this model.
- The editor asset loader, `D3D11Texture` and `Model` are not modelled. Their code is either UI and I/O glue or declarations without bodies.

=== FILE: buffer_layout.dfy ===
/**
  Constant-buffer layouts as ordered lists of typed fields, laid out two
  ways: as the C++ compiler lays out the CPU-side struct (every type here
  is built of 4-byte floats, so fields follow each other with no gaps),
  and as HLSL packs a `cbuffer` into 16-byte registers (a field at most
  16 bytes long may not straddle a register boundary, and arrays and
  matrices start on a fresh register). The two agree when no C++ field
  straddles a register, which is what lets the engine copy a struct
  byte for byte into a GPU buffer.
 */
module BufferLayout {

  const REGISTER_SIZE: nat := 16

  /** The engine's math types. */
  datatype FieldType = Float | Vector2 | Vector3 | Vector4 | Matrix

  /** A struct member: `count` elements of `ty` (1 for a plain member, more for an array). */
  datatype Field = Field(name: string, ty: FieldType, count: nat)

  /** Sizes in bytes: `float` is 4 bytes and the vectors and the 4x4 matrix are made of floats. */
  function SizeOf(t: FieldType): (n: nat)
    ensures n % 4 == 0 && n > 0
  {
    match t
    case Float => 4
    case Vector2 => 8
    case Vector3 => 12
    case Vector4 => 16
    case Matrix => 64
  }

  /** The C++ size of a field. */
  function FieldSize(f: Field): nat {
    f.count * SizeOf(f.ty)
  }

  /** The first register boundary at or after `n`. */
  function RoundUp(n: nat): (r: nat)
    ensures r % REGISTER_SIZE == 0 && n <= r < n + REGISTER_SIZE
  {
    if n % REGISTER_SIZE == 0 then n else n + (REGISTER_SIZE - n % REGISTER_SIZE)
  }

  /** Whether HLSL starts this field on a fresh register wherever the previous one ended. */
  predicate StartsRegister(f: Field) {
    f.count != 1 || SizeOf(f.ty) > REGISTER_SIZE
  }

  /** The register-boundary rule, as a condition on a field placed at `offset`. */
  predicate FitsRegister(offset: nat, f: Field) {
    if StartsRegister(f) then offset % REGISTER_SIZE == 0
    else offset % REGISTER_SIZE + SizeOf(f.ty) <= REGISTER_SIZE
  }

  /** Where HLSL places a field when the previous one ended at `offset`. */
  function HlslStart(offset: nat, f: Field): (start: nat)
    ensures offset <= start < offset + REGISTER_SIZE
    ensures FitsRegister(start, f)
    ensures FitsRegister(offset, f) <==> start == offset
    ensures start != offset ==> start % REGISTER_SIZE == 0
  {
    if FitsRegister(offset, f) then offset else RoundUp(offset)
  }

  /** The bytes an HLSL field spans: every array element but the last fills whole registers. */
  function HlslSpan(f: Field): nat {
    if f.count == 0 then 0
    else (f.count - 1) * RoundUp(SizeOf(f.ty)) + SizeOf(f.ty)
  }

  /** The C++ offset of field `i`; for `i == |fields|`, the end of the struct. */
  function CppOffset(fields: seq<Field>, i: nat): nat
    requires i <= |fields|
  {
    if i == 0 then 0 else CppOffset(fields, i - 1) + FieldSize(fields[i - 1])
  }

  /** `sizeof` of the C++ struct. */
  function CppSize(fields: seq<Field>): nat {
    CppOffset(fields, |fields|)
  }

  /** Where the first `i` fields end when HLSL packs them. */
  function HlslEnd(fields: seq<Field>, i: nat): nat
    requires i <= |fields|
  {
    if i == 0 then 0
    else HlslStart(HlslEnd(fields, i - 1), fields[i - 1]) + HlslSpan(fields[i - 1])
  }

  /** The HLSL offset of field `i`. */
  function HlslOffset(fields: seq<Field>, i: nat): nat
    requires i < |fields|
  {
    HlslStart(HlslEnd(fields, i), fields[i])
  }

  /** The size HLSL gives a constant buffer: its contents rounded up to whole registers. */
  function HlslSize(fields: seq<Field>): nat {
    RoundUp(HlslEnd(fields, |fields|))
  }

  /** Field `i` of the C++ struct lies within the registers the rule allows. */
  predicate FitsAt(fields: seq<Field>, i: nat)
    requires i < |fields|
  {
    FitsRegister(CppOffset(fields, i), fields[i])
  }

  /** No field of the C++ struct straddles a 16-byte register boundary. */
  predicate NoStraddle(fields: seq<Field>) {
    forall i :: 0 <= i < |fields| ==> FitsAt(fields, i)
  }

  /** A field that starts a register consists of whole registers. */
  predicate WholeRegisters(f: Field) {
    StartsRegister(f) ==> SizeOf(f.ty) % REGISTER_SIZE == 0
  }

  /** Every array or matrix field consists of whole registers. */
  predicate WholeRegisterArrays(fields: seq<Field>) {
    forall i :: 0 <= i < |fields| ==> WholeRegisters(fields[i])
  }

  /** A field placed on the register rule spans as many bytes in HLSL as in C++. */
  lemma SpanAgrees(f: Field, offset: nat)
    requires FitsRegister(offset, f)
    requires StartsRegister(f) ==> SizeOf(f.ty) % REGISTER_SIZE == 0
    ensures HlslSpan(f) == FieldSize(f)
  {
  }

  /** Packing the first `i` fields ends where the C++ struct's first `i` fields end. */
  lemma {:induction false} EndsAgree(fields: seq<Field>, i: nat)
    requires i <= |fields|
    requires NoStraddle(fields) && WholeRegisterArrays(fields)
    ensures HlslEnd(fields, i) == CppOffset(fields, i)
  {
    if i > 0 {
      EndsAgree(fields, i - 1);
      var f := fields[i - 1];
      var at := CppOffset(fields, i - 1);
      assert FitsAt(fields, i - 1);
      assert WholeRegisters(f);
      SpanAgrees(f, at);
      assert HlslStart(at, f) == at;
      assert HlslEnd(fields, i) == HlslStart(HlslEnd(fields, i - 1), f) + HlslSpan(f);
    }
  }

  /**
    The whole-struct statement: when no C++ field straddles a register
    (and arrays consist of whole registers), HLSL places every field at
    its C++ offset, and when `sizeof` is a multiple of 16 the two buffer
    sizes agree as well.
   */
  lemma LayoutsCoincide(fields: seq<Field>)
    requires NoStraddle(fields) && WholeRegisterArrays(fields)
    ensures forall i :: 0 <= i < |fields| ==> HlslOffset(fields, i) == CppOffset(fields, i)
    ensures CppSize(fields) % REGISTER_SIZE == 0 ==> HlslSize(fields) == CppSize(fields)
  {
    forall i | 0 <= i < |fields|
      ensures HlslOffset(fields, i) == CppOffset(fields, i)
    {
      EndsAgree(fields, i);
      assert FitsAt(fields, i);
    }
    EndsAgree(fields, |fields|);
  }

  /** Conversely, a straddling field is moved by HLSL, so the layouts differ there. */
  lemma StraddleMoves(fields: seq<Field>, i: nat)
    requires i < |fields|
    requires HlslEnd(fields, i) == CppOffset(fields, i)
    requires !FitsRegister(CppOffset(fields, i), fields[i])
    ensures HlslOffset(fields, i) > CppOffset(fields, i)
  {
  }
}

=== FILE: debug_shader.dfy ===
/**
  The debug shader: a single-buffer shader used for diagnostic draws.
  Each device call is an event in a returned trace. Two small
  interpreters give the traces their meaning: `RunSetup` for the objects
  `Load` creates, and `Run` for the pipeline state a draw observes. `Run`
  rejects a trace that writes the constant buffer outside a Map/Unmap
  pair, maps it twice, or draws while it is mapped or before a shader is
  set.

  Matrices are a type parameter `M`, and their product is a parameter
  `mul`, so nothing is assumed about matrix arithmetic beyond the order
  of the operands.
 */
module DebugShader {
  import opened Wrappers
  import opened Ints
  import opened BufferLayout

  datatype Stage = VertexStage | PixelStage
  datatype InputLayout = PositionColor
  datatype Filter = Anisotropic
  datatype AddressMode = Wrap
  datatype Comparison = Always
  datatype Sampler = Sampler(filter: Filter, address: AddressMode, comparison: Comparison)

  /** A shader-resource-view handle, such as the depth map. */
  type View = nat

  /** The constant buffer's fields, as `SetShaderBuffers` writes them. */
  const DEFAULT_BUFFER: seq<Field> :=
    [Field("viewProjection", Matrix, 1), Field("worldViewProjection", Matrix, 1)]

  /** `sizeof(DefaultBuffer)`, the size of the constant buffer `Load` creates. */
  function DefaultBufferSize(): nat {
    CppSize(DEFAULT_BUFFER)
  }

  // ---------------------------------------------------------------- Load

  datatype SetupEvent =
    | CreateShader
    | LoadShader(path: string)
    | SetInputLayout(layout: InputLayout)
    | AddSampler(sampler: Sampler)
    | CreateConstantBuffer(size: nat)

  datatype ShaderSetup = ShaderSetup(path: Option<string>, layout: Option<InputLayout>, samplers: seq<Sampler>)

  /** The debug shader's objects: its shader and its constant buffer (by size). */
  datatype Setup = Setup(shader: Option<ShaderSetup>, constantBuffer: Option<nat>)

  /** One setup call; configuring a shader requires one to exist, and an input layout requires its code. */
  function StepSetup(s: Setup, e: SetupEvent): Option<Setup> {
    match e
    case CreateShader => Some(s.(shader := Some(ShaderSetup(None, None, []))))
    case LoadShader(path) =>
      if s.shader.None? then None
      else Some(s.(shader := Some(s.shader.value.(path := Some(path)))))
    case SetInputLayout(layout) =>
      if s.shader.None? || s.shader.value.path.None? then None
      else Some(s.(shader := Some(s.shader.value.(layout := Some(layout)))))
    case AddSampler(sampler) =>
      if s.shader.None? then None
      else Some(s.(shader := Some(s.shader.value.(samplers := s.shader.value.samplers + [sampler]))))
    case CreateConstantBuffer(size) => Some(s.(constantBuffer := Some(size)))
  }

  /** Performs `events[from..]` in order, stopping at the first rejected call. */
  function RunSetup(s: Setup, events: seq<SetupEvent>, from: nat): Option<Setup>
    requires from <= |events|
    decreases |events| - from
  {
    if from == |events| then Some(s)
    else match StepSetup(s, events[from])
      case None => None
      case Some(s') => RunSetup(s', events, from + 1)
  }

  /** A freshly constructed debug shader: no shader and no constant buffer yet. */
  const CONSTRUCTED: Setup := Setup(None, None)

  /** How many shaders, and how many constant buffers, a setup trace creates. */
  function ShaderCreations(events: seq<SetupEvent>, from: nat): nat
    requires from <= |events|
    decreases |events| - from
  {
    if from == |events| then 0 else (if events[from].CreateShader? then 1 else 0) + ShaderCreations(events, from + 1)
  }

  function BufferCreations(events: seq<SetupEvent>, from: nat): nat
    requires from <= |events|
    decreases |events| - from
  {
    if from == |events| then 0 else (if events[from].CreateConstantBuffer? then 1 else 0) + BufferCreations(events, from + 1)
  }

  /** What `Render` and its parts dereference: the shader and the constant buffer `Load` creates. */
  predicate IsLoaded(s: Setup) {
    s.shader.Some? && s.constantBuffer.Some?
  }

  /** The objects `Load` leaves behind, whatever existed before. */
  function Loaded(path: string): Setup {
    Setup(Some(ShaderSetup(Some(path), Some(PositionColor), [Sampler(Anisotropic, Wrap, Always)])),
          Some(DefaultBufferSize()))
  }

  /**
    `Load`: create and load the shader, set its input layout, add its
    sampler, then create the buffer. It creates exactly one shader, first,
    and exactly one constant buffer, last. On a freshly constructed debug
    shader every call is accepted and the result is `Loaded(path)`, which
    is ready to render.
   */
  function Load(path: string): (events: seq<SetupEvent>)
    ensures |events| > 0 && events[0] == CreateShader
    ensures events[|events| - 1] == CreateConstantBuffer(DefaultBufferSize())
    ensures ShaderCreations(events, 0) == 1 && BufferCreations(events, 0) == 1
    ensures RunSetup(CONSTRUCTED, events, 0) == Some(Loaded(path))
    ensures IsLoaded(Loaded(path))
  {
    var sampler := Sampler(Anisotropic, Wrap, Always);
    var events := [ CreateShader,
                    LoadShader(path),
                    SetInputLayout(PositionColor),
                    AddSampler(sampler),
                    CreateConstantBuffer(DefaultBufferSize()) ];
    var s1 := Setup(Some(ShaderSetup(None, None, [])), None);
    var s2 := Setup(Some(ShaderSetup(Some(path), None, [])), None);
    var s3 := Setup(Some(ShaderSetup(Some(path), Some(PositionColor), [])), None);
    var s4 := Setup(Some(ShaderSetup(Some(path), Some(PositionColor), [sampler])), None);
    assert RunSetup(s4, events, 4) == RunSetup(Loaded(path), events, 5) == Some(Loaded(path));
    assert [] + [sampler] == [sampler];
    assert RunSetup(s3, events, 3) == RunSetup(s4, events, 4);
    assert RunSetup(s2, events, 2) == RunSetup(s3, events, 3);
    assert RunSetup(s1, events, 1) == RunSetup(s2, events, 2);
    assert RunSetup(CONSTRUCTED, events, 0) == RunSetup(s1, events, 1);
    assert ShaderCreations(events, 5) == 0 && BufferCreations(events, 5) == 0;
    assert ShaderCreations(events, 4) == 0 && BufferCreations(events, 4) == 1;
    assert ShaderCreations(events, 3) == 0 && BufferCreations(events, 3) == 1;
    assert ShaderCreations(events, 2) == 0 && BufferCreations(events, 2) == 1;
    assert ShaderCreations(events, 1) == 0 && BufferCreations(events, 1) == 1;
    events
  }

  /**
    Loading again replaces whatever existed before: from any prior state
    `Load` still leaves a shader loaded from `path` with the
    position-colour input layout and exactly one anisotropic, wrapping,
    always-passing sampler, and one constant buffer the size of
    `DefaultBuffer`; every call is accepted.
   */
  lemma LoadConfiguresShader(s: Setup, path: string)
    ensures RunSetup(s, Load(path), 0) == Some(Loaded(path))
  {
    var events := Load(path);
    var s1 := s.(shader := Some(ShaderSetup(None, None, [])));
    var s2 := s1.(shader := Some(ShaderSetup(Some(path), None, [])));
    var s3 := s2.(shader := Some(ShaderSetup(Some(path), Some(PositionColor), [])));
    var s4 := s3.(shader := Some(ShaderSetup(Some(path), Some(PositionColor), [Sampler(Anisotropic, Wrap, Always)])));
    var s5 := s4.(constantBuffer := Some(DefaultBufferSize()));
    assert s5 == Loaded(path);
    assert RunSetup(s4, events, 4) == RunSetup(s5, events, 5) == Some(s5);
    assert [] + [Sampler(Anisotropic, Wrap, Always)] == [Sampler(Anisotropic, Wrap, Always)];
    assert RunSetup(s3, events, 3) == RunSetup(s4, events, 4);
    assert RunSetup(s2, events, 2) == RunSetup(s3, events, 3);
    assert RunSetup(s1, events, 1) == RunSetup(s2, events, 2);
  }

  /** The buffer `Load` creates holds the two matrices: 128 bytes, whole registers. */
  lemma DefaultBufferLayout()
    ensures DefaultBufferSize() == 128
    ensures DefaultBufferSize() % REGISTER_SIZE == 0
    ensures NoStraddle(DEFAULT_BUFFER)
  {
    assert CppOffset(DEFAULT_BUFFER, 1) == 64;
    assert CppOffset(DEFAULT_BUFFER, 2) == 128;
    forall i | 0 <= i < |DEFAULT_BUFFER|
      ensures FitsAt(DEFAULT_BUFFER, i)
    {
      assert i == 0 || i == 1;
    }
  }

  // -------------------------------------------------------------- Render

  datatype Event<M> =
    | Map
    | WriteViewProjection(viewProjection: M)
    | WriteWorldViewProjection(worldViewProjection: M)
    | Unmap
    | BindConstantBuffer(stage: Stage, slot: nat)
    | BindResources(stage: Stage, slot: nat, views: seq<View>)
    | SetShader
    | Draw(vertexCount: uint32, startVertex: nat)

  /** The constant buffer's contents; a field not written since the last `Map` is unknown. */
  datatype Contents<M> = Contents(viewProjection: Option<M>, worldViewProjection: Option<M>)

  /** What a draw call sees: its arguments and everything bound at that moment. */
  datatype DrawCall<M> = DrawCall(
    vertexCount: uint32,
    startVertex: nat,
    constants: Contents<M>,
    vertexConstantSlots: set<nat>,
    pixelResources: map<nat, View>)

  /** The device context as far as the debug shader uses it. */
  datatype Pipeline<M> = Pipeline(
    mapped: bool,
    contents: Contents<M>,
    vertexConstantSlots: set<nat>,
    pixelResources: map<nat, View>,
    shaderSet: bool,
    draws: seq<DrawCall<M>>)

  /** Binds `views` to consecutive slots from `slot`. */
  function BindViews(m: map<nat, View>, slot: nat, views: seq<View>): map<nat, View>
    decreases |views|
  {
    if |views| == 0 then m else BindViews(m[slot := views[0]], slot + 1, views[1..])
  }

  /** One device call; None when it breaks the Map/Unmap discipline or draws unprepared. */
  function Step<M>(p: Pipeline<M>, e: Event<M>): Option<Pipeline<M>> {
    match e
    case Map =>
      if p.mapped then None else Some(p.(mapped := true, contents := Contents(None, None)))
    case WriteViewProjection(m) =>
      if !p.mapped then None else Some(p.(contents := p.contents.(viewProjection := Some(m))))
    case WriteWorldViewProjection(m) =>
      if !p.mapped then None else Some(p.(contents := p.contents.(worldViewProjection := Some(m))))
    case Unmap =>
      if !p.mapped then None else Some(p.(mapped := false))
    case BindConstantBuffer(stage, slot) =>
      if stage == VertexStage then Some(p.(vertexConstantSlots := p.vertexConstantSlots + {slot}))
      else Some(p)
    case BindResources(stage, slot, views) =>
      if stage == PixelStage then Some(p.(pixelResources := BindViews(p.pixelResources, slot, views)))
      else Some(p)
    case SetShader => Some(p.(shaderSet := true))
    case Draw(count, start) =>
      if p.mapped || !p.shaderSet then None
      else Some(p.(draws := p.draws + [DrawCall(count, start, p.contents, p.vertexConstantSlots, p.pixelResources)]))
  }

  /** Performs `events[from..]` in order, stopping at the first rejected call. */
  function Run<M>(p: Pipeline<M>, events: seq<Event<M>>, from: nat): Option<Pipeline<M>>
    requires from <= |events|
    decreases |events| - from
  {
    if from == |events| then Some(p)
    else match Step(p, events[from])
      case None => None
      case Some(p') => Run(p', events, from + 1)
  }

  /** How many `Map` calls, and how many `Unmap` calls, a trace makes. */
  function Maps<M>(events: seq<Event<M>>, from: nat): nat
    requires from <= |events|
    decreases |events| - from
  {
    if from == |events| then 0 else (if events[from].Map? then 1 else 0) + Maps(events, from + 1)
  }

  function Unmaps<M>(events: seq<Event<M>>, from: nat): nat
    requires from <= |events|
    decreases |events| - from
  {
    if from == |events| then 0 else (if events[from].Unmap? then 1 else 0) + Unmaps(events, from + 1)
  }

  /** Performing `a + b` is performing `a`, then `b` from where `a` left off. */
  lemma {:induction false} RunConcat<M>(p: Pipeline<M>, a: seq<Event<M>>, b: seq<Event<M>>, i: nat)
    requires i <= |a|
    ensures Run(p, a + b, i) == (match Run(p, a, i) case None => None case Some(q) => Run(q, b, 0))
    decreases |a| - i
  {
    if i == |a| {
      RunShift(p, a, b, 0);
    } else {
      assert (a + b)[i] == a[i];
      match Step(p, a[i])
      case None =>
      case Some(p') => RunConcat(p', a, b, i + 1);
    }
  }

  lemma {:induction false} RunShift<M>(p: Pipeline<M>, a: seq<Event<M>>, b: seq<Event<M>>, j: nat)
    requires j <= |b|
    ensures Run(p, a + b, |a| + j) == Run(p, b, j)
    decreases |b| - j
  {
    if j < |b| {
      assert (a + b)[|a| + j] == b[j];
      match Step(p, b[j])
      case None =>
      case Some(p') => RunShift(p', a, b, j + 1);
    }
  }

  /** The counts of `Map` and `Unmap` calls add up over a concatenation. */
  lemma {:induction false} CountsConcat<M>(a: seq<Event<M>>, b: seq<Event<M>>, i: nat)
    requires i <= |a|
    ensures Maps(a + b, i) == Maps(a, i) + Maps(b, 0)
    ensures Unmaps(a + b, i) == Unmaps(a, i) + Unmaps(b, 0)
    decreases |a| - i
  {
    if i == |a| {
      CountsShift(a, b, 0);
    } else {
      assert (a + b)[i] == a[i];
      CountsConcat(a, b, i + 1);
    }
  }

  lemma {:induction false} CountsShift<M>(a: seq<Event<M>>, b: seq<Event<M>>, j: nat)
    requires j <= |b|
    ensures Maps(a + b, |a| + j) == Maps(b, j)
    ensures Unmaps(a + b, |a| + j) == Unmaps(b, j)
    decreases |b| - j
  {
    if j < |b| {
      assert (a + b)[|a| + j] == b[j];
      CountsShift(a, b, j + 1);
    }
  }

  /** The calls of `SetShaderBuffers` once both matrices are computed. */
  function BufferCalls<M>(viewProjection: M, worldViewProjection: M, depthMap: View): seq<Event<M>> {
    [ Map,
      WriteViewProjection(viewProjection),
      WriteWorldViewProjection(worldViewProjection),
      Unmap,
      BindConstantBuffer(VertexStage, 0),
      BindResources(PixelStage, 0, [depthMap]) ]
  }

  /** What `BufferCalls` does to an unmapped context. */
  lemma BufferCallsEffect<M(!new)>(vp: M, wvp: M, depthMap: View)
    ensures var events := BufferCalls(vp, wvp, depthMap);
      && Maps(events, 0) == 1 && Unmaps(events, 0) == 1
      && forall p: Pipeline<M> | !p.mapped :: Run(p, events, 0) == Some(p.(
        contents := Contents(Some(vp), Some(wvp)),
        vertexConstantSlots := p.vertexConstantSlots + {0},
        pixelResources := p.pixelResources[0 := depthMap]))
  {
    var events := BufferCalls(vp, wvp, depthMap);
    forall p: Pipeline<M> | !p.mapped
      ensures Run(p, events, 0) == Some(p.(
        contents := Contents(Some(vp), Some(wvp)),
        vertexConstantSlots := p.vertexConstantSlots + {0},
        pixelResources := p.pixelResources[0 := depthMap]))
    {
      var p1 := p.(mapped := true, contents := Contents(None, None));
      var p2 := p1.(contents := Contents(Some(vp), None));
      var p3 := p2.(contents := Contents(Some(vp), Some(wvp)));
      var p4 := p3.(mapped := false);
      var p5 := p4.(vertexConstantSlots := p.vertexConstantSlots + {0});
      var p6 := p5.(pixelResources := p.pixelResources[0 := depthMap]);
      assert BindViews(p.pixelResources, 0, [depthMap]) == p.pixelResources[0 := depthMap] by {
        assert [depthMap][1..] == [];
      }
      assert Run(p5, events, 5) == Run(p6, events, 6) == Some(p6);
      assert Run(p4, events, 4) == Run(p5, events, 5);
      assert Run(p3, events, 3) == Run(p4, events, 4);
      assert Run(p2, events, 2) == Run(p3, events, 3);
      assert Run(p1, events, 1) == Run(p2, events, 2);
      assert Run(p, events, 0) == Run(p1, events, 1);
    }
    assert Maps(events, 6) == 0 && Unmaps(events, 6) == 0;
    assert Maps(events, 5) == 0 && Unmaps(events, 5) == 0;
    assert Maps(events, 4) == 0 && Unmaps(events, 4) == 0;
    assert Maps(events, 3) == 0 && Unmaps(events, 3) == 1;
    assert Maps(events, 2) == 0 && Unmaps(events, 2) == 1;
    assert Maps(events, 1) == 0 && Unmaps(events, 1) == 1;
  }

  /**
    `SetShaderBuffers`: on an unmapped context its calls map and unmap the
    buffer exactly once, leave it holding `view x projection` and
    `world x (view x projection)`, bind it to vertex slot 0, and bind the
    depth map to pixel slot 0; nothing else changes. Both binds come
    after the last Map/Unmap, the vertex-slot bind first. The buffer it maps
    is the one `Load` creates, so the debug shader `s` must have it.
   */
  function SetShaderBuffers<M(!new)>(s: Setup, mul: (M, M) -> M, world: M, view: M, projection: M, depthMap: View)
    : (events: seq<Event<M>>)
    requires s.constantBuffer.Some?
    ensures Maps(events, 0) == 1 && Unmaps(events, 0) == 1
    ensures forall p: Pipeline<M> | !p.mapped :: Run(p, events, 0) == Some(p.(
      contents := Contents(Some(mul(view, projection)), Some(mul(world, mul(view, projection)))),
      vertexConstantSlots := p.vertexConstantSlots + {0},
      pixelResources := p.pixelResources[0 := depthMap]))
    ensures forall i :: 0 <= i < |events| && (events[i].BindConstantBuffer? || events[i].BindResources?) ==>
      Maps(events, i) == 0 && Unmaps(events, i) == 0
    ensures forall i, j ::
      0 <= i < |events| && 0 <= j < |events| && events[i].BindConstantBuffer? && events[j].BindResources? ==> i < j
  {
    var viewProjection := mul(view, projection);
    BufferCallsEffect(viewProjection, mul(world, viewProjection), depthMap);
    var events := BufferCalls(viewProjection, mul(world, viewProjection), depthMap);
    assert Maps(events, 6) == 0 && Unmaps(events, 6) == 0;
    assert Maps(events, 5) == 0 && Unmaps(events, 5) == 0;
    assert Maps(events, 4) == 0 && Unmaps(events, 4) == 0;
    events
  }

  /** The calls of `RenderShader`. */
  function ShaderCalls<M>(vertexCount: uint32): seq<Event<M>> {
    [SetShader, Draw(vertexCount, 0)]
  }

  /** What `ShaderCalls` does: one draw on an unmapped context, a rejection on a mapped one. */
  lemma ShaderCallsEffect<M(!new)>(vertexCount: uint32)
    ensures var events: seq<Event<M>> := ShaderCalls(vertexCount);
      && Maps(events, 0) == 0 && Unmaps(events, 0) == 0
      && (forall p: Pipeline<M> | !p.mapped :: Run(p, events, 0) == Some(p.(
        shaderSet := true,
        draws := p.draws + [DrawCall(vertexCount, 0, p.contents, p.vertexConstantSlots, p.pixelResources)])))
      && (forall p: Pipeline<M> | p.mapped :: Run(p, events, 0) == None)
  {
    var events: seq<Event<M>> := ShaderCalls(vertexCount);
    forall p: Pipeline<M>
      ensures !p.mapped ==> Run(p, events, 0) == Some(p.(
        shaderSet := true,
        draws := p.draws + [DrawCall(vertexCount, 0, p.contents, p.vertexConstantSlots, p.pixelResources)]))
      ensures p.mapped ==> Run(p, events, 0) == None
    {
      var p1 := p.(shaderSet := true);
      assert Run(p, events, 0) == Run(p1, events, 1);
      if p.mapped {
        assert Step(p1, events[1]) == None;
      } else {
        var p2 := p1.(draws := p.draws + [DrawCall(vertexCount, 0, p.contents, p.vertexConstantSlots, p.pixelResources)]);
        assert Run(p1, events, 1) == Run(p2, events, 2) == Some(p2);
      }
    }
    assert Maps(events, 1) == 0 && Unmaps(events, 1) == 0;
  }

  /**
    `RenderShader`: set the shader, then a non-indexed draw from vertex 0.
    On an unmapped context this records exactly one draw, which sees the
    context as it stood; on a context whose buffer is still mapped the
    draw is rejected. The shader it sets is the one `Load` creates, so the
    debug shader `s` must have it.
   */
  function RenderShader<M(!new)>(s: Setup, vertexCount: uint32): (events: seq<Event<M>>)
    requires s.shader.Some?
    ensures Maps(events, 0) == 0 && Unmaps(events, 0) == 0
    ensures forall p: Pipeline<M> | !p.mapped :: Run(p, events, 0) == Some(p.(
      shaderSet := true,
      draws := p.draws + [DrawCall(vertexCount, 0, p.contents, p.vertexConstantSlots, p.pixelResources)]))
    ensures forall p: Pipeline<M> | p.mapped :: Run(p, events, 0) == None
  {
    ShaderCallsEffect<M>(vertexCount);
    ShaderCalls(vertexCount)
  }

  /**
    `Render`: the buffer setup, then the draw. On an unmapped context its
    calls run without a protocol violation, map and unmap exactly once,
    and issue exactly one draw, which sees `view x projection` and
    `world x (view x projection)` in the buffer, the buffer bound to
    vertex slot 0 and the depth map as the only newly bound pixel
    resource, at slot 0. The signed vertex count reaches the draw
    converted to `unsigned int`. The binds follow the Unmap, and every
    buffer and resource call precedes setting the shader. The debug
    shader `s` must be loaded.
   */
  function Render<M(!new)>(s: Setup, mul: (M, M) -> M, vertexCount: int32, world: M, view: M, projection: M,
                           depthMap: View): (events: seq<Event<M>>)
    requires IsLoaded(s)
    ensures Maps(events, 0) == 1 && Unmaps(events, 0) == 1
    ensures forall p: Pipeline<M> | !p.mapped :: Run(p, events, 0) == Some(p.(
      contents := Contents(Some(mul(view, projection)), Some(mul(world, mul(view, projection)))),
      vertexConstantSlots := p.vertexConstantSlots + {0},
      pixelResources := p.pixelResources[0 := depthMap],
      shaderSet := true,
      draws := p.draws + [DrawCall(
        ToUnsigned(vertexCount), 0,
        Contents(Some(mul(view, projection)), Some(mul(world, mul(view, projection)))),
        p.vertexConstantSlots + {0},
        p.pixelResources[0 := depthMap])]))
    ensures forall i :: 0 <= i < |events| && (events[i].BindConstantBuffer? || events[i].BindResources?) ==>
      Maps(events, i) == 0 && Unmaps(events, i) == 0
    ensures forall i, j ::
      0 <= i < |events| && 0 <= j < |events| && events[j].SetShader? && !events[i].SetShader? && !events[i].Draw? ==>
      i < j
  {
    var setup := SetShaderBuffers(s, mul, world, view, projection, depthMap);
    var draw := RenderShader(s, ToUnsigned(vertexCount));
    CountsConcatAll(setup, draw);
    RunConcatAll(setup, draw);
    setup + draw
  }

  /** `CountsConcat` for every position of the first trace at once. */
  lemma CountsConcatAll<M>(a: seq<Event<M>>, b: seq<Event<M>>)
    ensures forall i :: 0 <= i <= |a| ==>
      Maps(a + b, i) == Maps(a, i) + Maps(b, 0) && Unmaps(a + b, i) == Unmaps(a, i) + Unmaps(b, 0)
  {
    forall i | 0 <= i <= |a|
      ensures Maps(a + b, i) == Maps(a, i) + Maps(b, 0) && Unmaps(a + b, i) == Unmaps(a, i) + Unmaps(b, 0)
    {
      CountsConcat(a, b, i);
    }
  }

  /** `RunConcat` for every starting context at once. */
  lemma RunConcatAll<M(!new)>(a: seq<Event<M>>, b: seq<Event<M>>)
    ensures forall p: Pipeline<M> ::
      Run(p, a + b, 0) == (match Run(p, a, 0) case None => None case Some(q) => Run(q, b, 0))
  {
    forall p: Pipeline<M>
      ensures Run(p, a + b, 0) == (match Run(p, a, 0) case None => None case Some(q) => Run(q, b, 0))
    {
      RunConcat(p, a, b, 0);
    }
  }

  /** The interpreter is strict: a buffer write outside a mapping is rejected. */
  lemma WriteOutsideMapRejected<M>(p: Pipeline<M>, m: M, rest: seq<Event<M>>)
    requires !p.mapped
    ensures Run(p, [WriteWorldViewProjection(m)] + rest, 0) == None
  {
  }

  /** A second `Map` before the `Unmap` is rejected. */
  lemma DoubleMapRejected<M>(p: Pipeline<M>, rest: seq<Event<M>>)
    requires !p.mapped
    ensures Run(p, [Map, Map] + rest, 0) == None
  {
  }

  /** A draw while the buffer is still mapped is rejected. */
  lemma DrawWhileMappedRejected<M>(p: Pipeline<M>, count: uint32, rest: seq<Event<M>>)
    requires p.mapped
    ensures Run(p, [Draw(count, 0)] + rest, 0) == None
  {
  }
}

=== FILE: event_system.dfy ===
/**
  The engine's publish/subscribe dispatcher. The engine keeps one
  process-wide list of subscribers; here the list is an explicit value
  that every operation takes and returns. A subscriber is identified by
  the event it listens to and the address of its callback function;
  calling a subscriber is recorded rather than performed, so that
  `CallSubscriber` returns the subscribers it would invoke, in order.
 */
module EventSystem {
  import opened Wrappers

  datatype Subscriber = Subscriber(eventID: int, address: nat)

  type Subscribers = seq<Subscriber>

  /** The removal test: both the event and the callback address agree. */
  predicate Matches(s: Subscriber, eventID: int, address: nat) {
    s.eventID == eventID && s.address == address
  }

  /** `k` is the position of the first subscriber matching (eventID, address). */
  predicate IsFirstMatch(subs: Subscribers, eventID: int, address: nat, k: int) {
    && 0 <= k < |subs|
    && Matches(subs[k], eventID, address)
    && forall j :: 0 <= j < k ==> !Matches(subs[j], eventID, address)
  }

  /** `subs` minus its element at position `k`, everything else in order. */
  function Without(subs: Subscribers, k: nat): (r: Subscribers)
    requires k < |subs|
    ensures |r| == |subs| - 1
    ensures forall j :: 0 <= j < k ==> r[j] == subs[j]
    ensures forall j :: k <= j < |r| ==> r[j] == subs[j + 1]
  {
    subs[..k] + subs[k + 1..]
  }

  /** The scan of `RemoveSubscriber`: the first matching position, if any. */
  function FirstMatch(subs: Subscribers, eventID: int, address: nat): (k: Option<nat>)
    ensures k.Some? ==> IsFirstMatch(subs, eventID, address, k.value)
    ensures k.None? ==> forall j :: 0 <= j < |subs| ==> !Matches(subs[j], eventID, address)
  {
    if |subs| == 0 then None
    else if Matches(subs[0], eventID, address) then Some(0)
    else match FirstMatch(subs[1..], eventID, address)
      case None => None
      case Some(k) => Some(k + 1)
  }

  /** `Clear`: the dispatcher forgets every subscriber. */
  function Clear(): (r: Subscribers)
    ensures |r| == 0
  {
    []
  }

  /** `AddSubscriber`: appends, with no check for an existing equal subscriber. */
  function AddSubscriber(subs: Subscribers, s: Subscriber): (r: Subscribers)
    ensures |r| == |subs| + 1
    ensures r[..|subs|] == subs && r[|subs|] == s
    ensures multiset(r) == multiset(subs) + multiset{s}
  {
    subs + [s]
  }

  /** `RemoveSubscriber`: erases the first subscriber matching both keys, and only that one. */
  function RemoveSubscriber(subs: Subscribers, eventID: int, address: nat): (r: Subscribers)
    ensures (forall j :: 0 <= j < |subs| ==> !Matches(subs[j], eventID, address)) ==> r == subs
    ensures (exists j :: 0 <= j < |subs| && Matches(subs[j], eventID, address)) ==>
      exists k :: IsFirstMatch(subs, eventID, address, k) && r == Without(subs, k)
    ensures |subs| - 1 <= |r| <= |subs|
  {
    match FirstMatch(subs, eventID, address)
    case None => subs
    case Some(k) => Without(subs, k)
  }

  /**
    The subscribers `CallSubscriber(eventID)` invokes: those listening to
    `eventID`, in list order. The address plays no part.
   */
  function Invoked(subs: Subscribers, eventID: int): (r: Subscribers)
    ensures |r| <= |subs|
    ensures forall i :: 0 <= i < |r| ==> r[i].eventID == eventID
  {
    if |subs| == 0 then []
    else
      assert subs == [subs[0]] + subs[1..];
      (if subs[0].eventID == eventID then [subs[0]] else []) + Invoked(subs[1..], eventID)
  }

  /** Each subscriber of the event is invoked as many times as it appears in the list. */
  lemma {:induction false} InvokedCounts(subs: Subscribers, eventID: int, s: Subscriber)
    requires s.eventID == eventID
    ensures multiset(Invoked(subs, eventID))[s] == multiset(subs)[s]
    decreases |subs|
  {
    if |subs| > 0 {
      InvokedCounts(subs[1..], eventID, s);
      assert subs == [subs[0]] + subs[1..];
    }
  }

  /** The order of invocation follows the list: dispatch over a concatenation is the concatenation. */
  lemma {:induction false} InvokedAppend(a: Subscribers, b: Subscribers, eventID: int)
    ensures Invoked(a + b, eventID) == Invoked(a, eventID) + Invoked(b, eventID)
    decreases |a|
  {
    if |a| == 0 {
      assert a + b == b;
    } else {
      assert (a + b)[1..] == a[1..] + b;
      InvokedAppend(a[1..], b, eventID);
    }
  }

  /** One more subscriber of the prefix scanned so far. */
  lemma InvokedStep(subs: Subscribers, i: nat, eventID: int)
    requires i < |subs|
    ensures Invoked(subs[..i + 1], eventID)
         == Invoked(subs[..i], eventID) + (if subs[i].eventID == eventID then [subs[i]] else [])
  {
    assert subs[..i + 1] == subs[..i] + [subs[i]];
    InvokedAppend(subs[..i], [subs[i]], eventID);
    assert [subs[i]][1..] == [];
  }

  /**
    `CallSubscriber`: the range-for over the list, recording every
    subscriber whose event matches. The list itself is an input only, so
    the dispatch cannot change it.
   */
  method CallSubscriber(subs: Subscribers, eventID: int) returns (calls: Subscribers)
    ensures calls == Invoked(subs, eventID)
  {
    calls := [];
    var i := 0;
    while i < |subs|
      invariant 0 <= i <= |subs|
      invariant calls == Invoked(subs[..i], eventID)
    {
      InvokedStep(subs, i, eventID);
      if subs[i].eventID == eventID {
        calls := calls + [subs[i]];
      }
      i := i + 1;
    }
    assert subs[..i] == subs;
  }

  /**
    Counting occurrences: removal takes away exactly one copy of the
    matching subscriber when there is one, and leaves every other
    subscriber's count alone, in particular one with the same address
    listening to a different event.
   */
  lemma RemoveSubscriberMultiset(subs: Subscribers, eventID: int, address: nat)
    ensures multiset(RemoveSubscriber(subs, eventID, address))
         == multiset(subs) - multiset{Subscriber(eventID, address)}
  {
    var r := RemoveSubscriber(subs, eventID, address);
    var target := Subscriber(eventID, address);
    match FirstMatch(subs, eventID, address)
    case None =>
    case Some(k) =>
      assert subs == subs[..k] + [subs[k]] + subs[k + 1..];
      assert subs[k] == target;
  }

  /** A later duplicate of the removed subscriber is kept, shifted down by one. */
  lemma RemoveSubscriberKeepsLaterDuplicate(subs: Subscribers, eventID: int, address: nat, i: nat, j: nat)
    requires i < j < |subs|
    requires Matches(subs[i], eventID, address) && Matches(subs[j], eventID, address)
    ensures |RemoveSubscriber(subs, eventID, address)| == |subs| - 1
    ensures RemoveSubscriber(subs, eventID, address)[j - 1] == subs[j]
  {
  }

  /** `RemoveSubscriber` undoes an `AddSubscriber` of a subscriber not already present. */
  lemma RemoveUndoesAdd(subs: Subscribers, s: Subscriber)
    requires s !in subs
    ensures RemoveSubscriber(AddSubscriber(subs, s), s.eventID, s.address) == subs
  {
  }

  /** Removal leaves the dispatch of every other event unchanged. */
  lemma RemoveSubscriberOtherEvents(subs: Subscribers, eventID: int, address: nat, other: int)
    requires other != eventID
    ensures Invoked(RemoveSubscriber(subs, eventID, address), other) == Invoked(subs, other)
  {
    match FirstMatch(subs, eventID, address)
    case None =>
    case Some(k) =>
      assert subs == subs[..k] + ([subs[k]] + subs[k + 1..]);
      InvokedAppend(subs[..k], [subs[k]] + subs[k + 1..], other);
      InvokedAppend([subs[k]], subs[k + 1..], other);
      InvokedAppend(subs[..k], subs[k + 1..], other);
  }

  /** A newly added subscriber is invoked last, and only for its own event. */
  lemma InvokedAfterAdd(subs: Subscribers, s: Subscriber, eventID: int)
    ensures Invoked(AddSubscriber(subs, s), eventID)
         == Invoked(subs, eventID) + (if s.eventID == eventID then [s] else [])
  {
    InvokedAppend(subs, [s], eventID);
  }
}

=== FILE: full_screen_quad.dfy ===
/**
  The screen-filling quad: two triangles covering a `width` x `height`
  rectangle around the origin, with texture coordinates (0,0) at the top
  left, uploaded as a six-vertex buffer and a sequential index buffer.

  The engine computes the edges in `float` from C++ `int` arithmetic;
  every value is integral, so coordinates are modelled as `int` (exact
  for sizes below 2^24). The `Graphics` object is an opaque handle, and
  its device is reduced to whether it exists and whether each of its two
  `CreateBuffer` calls succeeds.
 */
module FullScreenQuad {
  import opened Wrappers
  import opened Ints

  /** A `VertexPosTex`: position (x, y, z) and texture coordinate (u, v). */
  datatype Vertex = Vertex(x: int, y: int, z: int, u: int, v: int)

  datatype Edges = Edges(left: int, right: int, top: int, bottom: int)

  /** The device as `Initialize` sees it: present or null, and the outcome of each buffer creation. */
  datatype Device = NullDevice | Device(vertexBufferCreated: bool, indexBufferCreated: bool)

  /** A `CreateBuffer` call issued to the device, with the CPU-side data it uploads. */
  datatype CreateCall = CreateVertexBuffer(vertices: seq<Vertex>) | CreateIndexBuffer(indices: seq<nat>)

  /** A `Graphics` object, known only by identity. */
  type Graphics = nat

  /** The quad object's state: the `Graphics` it draws through, element counts and the GPU buffers it holds. */
  datatype Quad = Quad(
    graphics: Option<Graphics>,
    vertexCount: nat,
    indexCount: nat,
    vertexBuffer: Option<seq<Vertex>>,
    indexBuffer: Option<seq<nat>>)

  /** What `Initialize` returns, the state it leaves and the device calls it made, in order. */
  datatype Init = Init(ok: bool, quad: Quad, calls: seq<CreateCall>)

  const VERTEX_COUNT: nat := 6

  /** The state the constructor establishes. */
  const CONSTRUCTED: Quad := Quad(None, 0, 0, None, None)

  /**
    The window edges: the left edge is minus half the width, rounded
    toward zero, and the other edges follow from it, so the rectangle
    has exactly the requested size and a positive odd size leaves the
    extra unit on the right and at the bottom.
   */
  function ComputeEdges(width: int32, height: int32): (e: Edges)
    ensures e.right - e.left == width as int
    ensures e.top - e.bottom == height as int
    ensures e.left + e.right == TruncRem(width as int, 2)
    ensures e.top + e.bottom == -TruncRem(height as int, 2)
  {
    var left := -TruncDiv(width as int, 2);
    var top := TruncDiv(height as int, 2);
    Edges(left, left + width as int, top, top - height as int)
  }

  /**
    The vertex table: top-left, bottom-right, bottom-left, then top-left,
    top-right, bottom-right. Every vertex lies in the z = 0 plane, and its
    texture coordinate is a corner of the unit square that selects its
    position: u picks the left or right edge, v the top or bottom one.
   */
  function QuadVertices(e: Edges): (vs: seq<Vertex>)
    ensures |vs| == VERTEX_COUNT
    ensures forall i :: 0 <= i < |vs| ==>
      && vs[i].z == 0
      && (vs[i].u == 0 || vs[i].u == 1)
      && (vs[i].v == 0 || vs[i].v == 1)
      && vs[i].x == (if vs[i].u == 0 then e.left else e.right)
      && vs[i].y == (if vs[i].v == 0 then e.top else e.bottom)
  {
    [ Vertex(e.left, e.top, 0, 0, 0),
      Vertex(e.right, e.bottom, 0, 1, 1),
      Vertex(e.left, e.bottom, 0, 0, 1),
      Vertex(e.left, e.top, 0, 0, 0),
      Vertex(e.right, e.top, 0, 1, 0),
      Vertex(e.right, e.bottom, 0, 1, 1) ]
  }

  /** The index table, filled by the loop `indices[i] = i`. */
  function SequentialIndices(n: nat): (r: seq<nat>)
    ensures |r| == n
    ensures forall i :: 0 <= i < n ==> r[i] == i
  {
    if n == 0 then [] else SequentialIndices(n - 1) + [n - 1]
  }

  /**
    `Initialize`: the quad first remembers `graphics`; a null device then
    fails before any geometry is computed, with nothing else changed.
    Otherwise the counts are set, the vertex buffer is created, and only
    if that succeeds is the index buffer created. The result is true
    exactly when both creations succeed, and then the quad holds the
    vertex table for the requested size and the indices 0..5; a failed
    creation leaves its buffer unset.
   */
  function Initialize(q: Quad, width: int32, height: int32, graphics: Graphics, device: Device): (r: Init)
    ensures r.ok <==> device.Device? && device.vertexBufferCreated && device.indexBufferCreated
    ensures r.quad.graphics == Some(graphics)
    ensures device.NullDevice? ==> r.quad == q.(graphics := Some(graphics)) && r.calls == []
    ensures device.Device? ==> r.quad.vertexCount == VERTEX_COUNT && r.quad.indexCount == VERTEX_COUNT
    ensures device.Device? && !device.vertexBufferCreated ==>
      && |r.calls| == 1 && r.calls[0].CreateVertexBuffer?
      && r.quad.vertexBuffer == None && r.quad.indexBuffer == q.indexBuffer
    ensures device.Device? && device.vertexBufferCreated ==>
      |r.calls| == 2 && r.calls[0].CreateVertexBuffer? && r.calls[1].CreateIndexBuffer?
    ensures device.Device? && device.vertexBufferCreated && !device.indexBufferCreated ==>
      && r.quad.vertexBuffer == Some(QuadVertices(ComputeEdges(width, height)))
      && r.quad.indexBuffer == None
    ensures r.ok ==>
      && r.quad.vertexBuffer == Some(QuadVertices(ComputeEdges(width, height)))
      && r.quad.indexBuffer == Some(SequentialIndices(VERTEX_COUNT))
  {
    var q := q.(graphics := Some(graphics));
    match device
    case NullDevice => Init(false, q, [])
    case Device(vertexOk, indexOk) =>
      var vertices := QuadVertices(ComputeEdges(width, height));
      var indices := SequentialIndices(VERTEX_COUNT);
      var counted := q.(vertexCount := VERTEX_COUNT, indexCount := VERTEX_COUNT);
      var vertexCall := CreateVertexBuffer(vertices);
      if !vertexOk then
        Init(false, counted.(vertexBuffer := None), [vertexCall])
      else
        var withVertices := counted.(vertexBuffer := Some(vertices));
        var calls := [vertexCall, CreateIndexBuffer(indices)];
        if !indexOk then
          Init(false, withVertices.(indexBuffer := None), calls)
        else
          Init(true, withVertices.(indexBuffer := Some(indices)), calls)
  }

  /**
    Initializing a freshly constructed quad: on success it holds exactly
    the geometry for the requested size, and on failure it never holds an
    index buffer.
   */
  lemma InitializeFresh(width: int32, height: int32, graphics: Graphics, device: Device)
    ensures var r := Initialize(CONSTRUCTED, width, height, graphics, device);
      && (r.ok ==> r.quad == Quad(Some(graphics), VERTEX_COUNT, VERTEX_COUNT,
                                  Some(QuadVertices(ComputeEdges(width, height))), Some([0, 1, 2, 3, 4, 5])))
      && (!r.ok ==> r.quad.indexBuffer == None)
  {
    assert SequentialIndices(VERTEX_COUNT) == [0, 1, 2, 3, 4, 5];
  }

  /** Twice the signed area of a triangle in y-up coordinates; negative means clockwise. */
  function DoubledSignedArea(a: Vertex, b: Vertex, c: Vertex): int {
    (b.x - a.x) * (c.y - a.y) - (c.x - a.x) * (b.y - a.y)
  }

  /** Whatever the outcome of the device calls, the data uploaded is the quad's geometry. */
  lemma UploadedGeometry(q: Quad, width: int32, height: int32, graphics: Graphics, device: Device)
    requires device.Device?
    ensures var r := Initialize(q, width, height, graphics, device);
      var e := ComputeEdges(width, height);
      && r.calls[0] == CreateVertexBuffer(QuadVertices(e))
      && (|r.calls| == 2 ==> r.calls[1] == CreateIndexBuffer([0, 1, 2, 3, 4, 5]))
  {
  }

  /** The second triangle starts and ends on the first triangle's corners. */
  lemma DuplicatedCorners(e: Edges)
    ensures QuadVertices(e)[3] == QuadVertices(e)[0]
    ensures QuadVertices(e)[5] == QuadVertices(e)[1]
    ensures QuadVertices(e)[0] == Vertex(e.left, e.top, 0, 0, 0)
    ensures QuadVertices(e)[1] == Vertex(e.right, e.bottom, 0, 1, 1)
  {
  }

  /**
    Every vertex lies in the z = 0 plane on a corner of the rectangle,
    and its texture coordinate names that corner: u = 0 exactly at the
    left edge, u = 1 exactly at the right, v = 0 at the top, v = 1 at the
    bottom (for a non-degenerate rectangle).
   */
  lemma UvMatchesCorner(width: int32, height: int32, i: nat)
    requires width != 0 && height != 0
    requires i < VERTEX_COUNT
    ensures var e := ComputeEdges(width, height);
      var v := QuadVertices(e)[i];
      && v.z == 0
      && (v.x == e.left || v.x == e.right)
      && (v.y == e.top || v.y == e.bottom)
      && (v.u == 0 <==> v.x == e.left)
      && (v.u == 1 <==> v.x == e.right)
      && (v.v == 0 <==> v.y == e.top)
      && (v.v == 1 <==> v.y == e.bottom)
  {
  }

  /**
    Both triangles have the same winding, with signed area
    -width*height/2: clockwise in y-up coordinates for a positive size.
   */
  lemma SameWinding(width: int32, height: int32)
    ensures var vs := QuadVertices(ComputeEdges(width, height));
      && DoubledSignedArea(vs[0], vs[1], vs[2]) == -(width as int) * (height as int)
      && DoubledSignedArea(vs[3], vs[4], vs[5]) == -(width as int) * (height as int)
    ensures width > 0 && height > 0 ==>
      var vs := QuadVertices(ComputeEdges(width, height));
      DoubledSignedArea(vs[0], vs[1], vs[2]) < 0 && DoubledSignedArea(vs[3], vs[4], vs[5]) < 0
  {
    var e := ComputeEdges(width, height);
    var vs := QuadVertices(e);
    var w, h := width as int, height as int;
    RightTriangleArea(e.left, e.right, e.top, e.bottom, w, h);
    assert DoubledSignedArea(vs[0], vs[1], vs[2]) == -w * h;
    assert DoubledSignedArea(vs[3], vs[4], vs[5]) == -w * h;
    if w > 0 && h > 0 {
      assert w * h > 0;
    }
  }

  /** The two right triangles of a `w` x `h` rectangle, as the vertex table orders their corners. */
  lemma RightTriangleArea(left: int, right: int, top: int, bottom: int, w: int, h: int)
    requires right - left == w && top - bottom == h
    ensures DoubledSignedArea(Vertex(left, top, 0, 0, 0), Vertex(right, bottom, 0, 1, 1), Vertex(left, bottom, 0, 0, 1)) == -w * h
    ensures DoubledSignedArea(Vertex(left, top, 0, 0, 0), Vertex(right, top, 0, 1, 0), Vertex(right, bottom, 0, 1, 1)) == -w * h
  {
  }

  /** An 800 x 600 quad has its top-left vertex at (-400, 300, 0) with texture coordinate (0, 0). */
  lemma Example800x600()
    ensures var e := ComputeEdges(800, 600);
      && e == Edges(-400, 400, 300, -300)
      && QuadVertices(e)[0] == Vertex(-400, 300, 0, 0, 0)
  {
  }

  /** Truncating division makes an odd width asymmetric: 801 gives edges -400 and 401. */
  lemma ExampleOddWidth()
    ensures var e := ComputeEdges(801, 600); e.left == -400 && e.right == 401
  {
  }
}

=== FILE: ints.dfy ===
/**
  The C++ integer behaviour the engine relies on: 32-bit `int` and
  `unsigned int`, division that truncates toward zero, and the
  conversion of a signed value to unsigned by wrapping modulo 2^32.
 */
module Ints {

  const TWO_TO_THE_32: int := 0x1_0000_0000

  newtype int32 = x: int | -0x8000_0000 <= x < 0x8000_0000
  newtype uint32 = x: int | 0 <= x < 0x1_0000_0000

  /** C++ `a / b` for a positive divisor: the quotient is rounded toward zero. */
  function TruncDiv(a: int, b: int): (q: int)
    requires b > 0
    ensures a >= 0 ==> 0 <= a - q * b < b
    ensures a < 0 ==> -b < a - q * b <= 0
  {
    if a >= 0 then a / b else -((-a) / b)
  }

  /** C++ `a % b` for a positive divisor: the remainder takes the sign of `a`. */
  function TruncRem(a: int, b: int): (r: int)
    requires b > 0
    ensures a == TruncDiv(a, b) * b + r
    ensures -b < r < b
    ensures a >= 0 ==> r >= 0
    ensures a <= 0 ==> r <= 0
  {
    a - TruncDiv(a, b) * b
  }

  /**
    The implicit conversion of a signed 32-bit value to `unsigned int`:
    the result is congruent to `x` modulo 2^32 (and, being a `uint32`, is
    the only such value; see `ToUnsignedUnique`).
   */
  function ToUnsigned(x: int32): (u: uint32)
    ensures (u as int - x as int) % TWO_TO_THE_32 == 0
  {
    if x >= 0 then x as int as uint32 else (x as int + TWO_TO_THE_32) as uint32
  }

  /** The conversion is determined by congruence alone, so it keeps every non-negative value. */
  lemma ToUnsignedUnique(x: int32, v: uint32)
    requires (v as int - x as int) % TWO_TO_THE_32 == 0
    ensures v == ToUnsigned(x)
    ensures x >= 0 ==> v as int == x as int
  {
  }
}

=== FILE: shader_variation.dfy ===
/**
  The data contracts of a shader variation: the nine texture-presence
  flags that select the permutation, and the three constant buffers it
  fills each frame, each material and each object.
 */
module ShaderVariation {
  import opened BufferLayout

  /** The number of shadow cascades, hence of light view-projection matrices per frame. */
  const CASCADES: nat := 3

  /** The texture-presence flags, one per texture channel a material may have. */
  datatype TextureFlags = TextureFlags(
    albedo: bool,
    roughness: bool,
    metallic: bool,
    normal: bool,
    height: bool,
    occlusion: bool,
    emission: bool,
    mask: bool,
    cubemap: bool)
  {
    predicate HasAlbedoTexture() { albedo }
    predicate HasRoughnessTexture() { roughness }
    predicate HasMetallicTexture() { metallic }
    predicate HasNormalTexture() { normal }
    predicate HasHeightTexture() { height }
    predicate HasOcclusionTexture() { occlusion }
    predicate HasEmissionTexture() { emission }
    predicate HasMaskTexture() { mask }
    predicate HasCubeMapTexture() { cubemap }
  }

  /** `Initialize`: records the flags, taken in the order albedo, roughness, metallic, normal, height, occlusion, emission, mask, cubemap. */
  function Initialize(
    albedo: bool, roughness: bool, metallic: bool, normal: bool, height: bool,
    occlusion: bool, emission: bool, mask: bool, cubemap: bool): (f: TextureFlags)
    ensures f.HasAlbedoTexture() == albedo && f.HasRoughnessTexture() == roughness
    ensures f.HasMetallicTexture() == metallic && f.HasNormalTexture() == normal
    ensures f.HasHeightTexture() == height && f.HasOcclusionTexture() == occlusion
    ensures f.HasEmissionTexture() == emission && f.HasMaskTexture() == mask
    ensures f.HasCubeMapTexture() == cubemap
  {
    TextureFlags(albedo, roughness, metallic, normal, height, occlusion, emission, mask, cubemap)
  }

  /** The getters in `Initialize`'s parameter order. */
  function Getters(f: TextureFlags): seq<bool> {
    [ f.HasAlbedoTexture(), f.HasRoughnessTexture(), f.HasMetallicTexture(),
      f.HasNormalTexture(), f.HasHeightTexture(), f.HasOcclusionTexture(),
      f.HasEmissionTexture(), f.HasMaskTexture(), f.HasCubeMapTexture() ]
  }

  /** The flag record whose getters, in `Initialize`'s order, give `g`. */
  function FromGetters(g: seq<bool>): (f: TextureFlags)
    requires |g| == 9
    ensures Getters(f) == g
  {
    Initialize(g[0], g[1], g[2], g[3], g[4], g[5], g[6], g[7], g[8])
  }

  function Pow2(n: nat): (p: nat)
    ensures p > 0
  {
    if n == 0 then 1 else 2 * Pow2(n - 1)
  }

  function Bit(b: bool): nat {
    if b then 1 else 0
  }

  /** The number whose binary digits, least significant first, are `bs`. */
  function Value(bs: seq<bool>): nat {
    if |bs| == 0 then 0 else Bit(bs[0]) + 2 * Value(bs[1..])
  }

  /** The `n` low binary digits of `m`, least significant first. */
  function Bits(m: nat, n: nat): (bs: seq<bool>)
    ensures |bs| == n
  {
    if n == 0 then [] else [m % 2 == 1] + Bits(m / 2, n - 1)
  }

  lemma {:induction false} ValueBound(bs: seq<bool>)
    ensures Value(bs) < Pow2(|bs|)
  {
    if |bs| > 0 {
      ValueBound(bs[1..]);
    }
  }

  lemma {:induction false} BitsOfValue(bs: seq<bool>)
    ensures Bits(Value(bs), |bs|) == bs
  {
    if |bs| > 0 {
      BitsOfValue(bs[1..]);
      var v := Value(bs);
      assert v % 2 == Bit(bs[0]) && v / 2 == Value(bs[1..]);
      assert Bits(v, |bs|) == [bs[0]] + bs[1..];
    }
  }

  lemma {:induction false} ValueOfBits(m: nat, n: nat)
    requires m < Pow2(n)
    ensures Value(Bits(m, n)) == m
  {
    if n > 0 {
      ValueOfBits(m / 2, n - 1);
      assert Bits(m, n)[1..] == Bits(m / 2, n - 1);
    }
  }

  /** A permutation key: the flags as a 9-bit number, albedo the least significant bit. */
  function Mask(f: TextureFlags): (m: nat)
    ensures m < 512
  {
    ValueBound(Getters(f));
    assert Pow2(9) == 512;
    Value(Getters(f))
  }

  /** The flag record of a permutation key. */
  function FromMask(m: nat): (f: TextureFlags)
    requires m < 512
  {
    FromGetters(Bits(m, 9))
  }

  /** Every flag combination is representable and distinguishable: the key determines the flags. */
  lemma FlagsRoundTrip(f: TextureFlags)
    ensures FromMask(Mask(f)) == f
  {
    BitsOfValue(Getters(f));
    FlagsDeterminedByGetters(FromMask(Mask(f)), f);
  }

  /** And the flags determine the key: the 2^9 combinations are exactly the keys below 512. */
  lemma MaskRoundTrip(m: nat)
    requires m < 512
    ensures Mask(FromMask(m)) == m
  {
    assert Pow2(9) == 512;
    ValueOfBits(m, 9);
  }

  /** Two flag records agree exactly when every getter agrees. */
  lemma FlagsDeterminedByGetters(f: TextureFlags, g: TextureFlags)
    ensures f == g <==> Getters(f) == Getters(g)
  {
  }

  /** `PerFrameBufferType`: viewport, clip planes, cascade matrices and shadow parameters. */
  function PerFrameBufferType(): (fs: seq<Field>)
    ensures |fs| == 10
  {
    [ Field("viewport", Vector2, 1),
      Field("nearPlane", Float, 1),
      Field("farPlane", Float, 1),
      Field("mLightViewProjection", Matrix, CASCADES),
      Field("shadowSplits", Vector4, 1),
      Field("lightDir", Vector3, 1),
      Field("shadowBias", Float, 1),
      Field("shadowMapResolution", Float, 1),
      Field("shadowMappingQuality", Float, 1),
      Field("padding", Vector2, 1) ]
  }

  /** `PerMaterialBufferType`: albedo colour, UV transform and the material multipliers. */
  function PerMaterialBufferType(): (fs: seq<Field>)
    ensures |fs| == 10
  {
    [ Field("matAlbedo", Vector4, 1),
      Field("matTilingUV", Vector2, 1),
      Field("matOffsetUV", Vector2, 1),
      Field("matRoughnessMul", Float, 1),
      Field("matMetallicMul", Float, 1),
      Field("matOcclusionMul", Float, 1),
      Field("matNormalMul", Float, 1),
      Field("matSpecularMul", Float, 1),
      Field("matShadingMode", Float, 1),
      Field("padding", Vector2, 1) ]
  }

  /** `PerObjectBufferType`: the object's matrices and its shadow-receiving switch. */
  function PerObjectBufferType(): (fs: seq<Field>)
    ensures |fs| == 5
  {
    [ Field("mWorld", Matrix, 1),
      Field("mWorldView", Matrix, 1),
      Field("mWorldViewProjection", Matrix, 1),
      Field("receiveShadows", Float, 1),
      Field("padding", Vector3, 1) ]
  }

  /**
    The per-frame buffer: 256 bytes, with one light view-projection
    matrix per cascade as its only matrices, `lightDir` at 224 and
    `shadowBias` at 236 in one register, and no field straddling a
    register, so HLSL packs it exactly as C++ lays it out.
   */
  lemma PerFrameLayout()
    ensures var fs := PerFrameBufferType();
      && CppSize(fs) == 256 && CppSize(fs) % REGISTER_SIZE == 0
      && fs[3] == Field("mLightViewProjection", Matrix, CASCADES) && CASCADES == 3
      && (forall i :: 0 <= i < |fs| && i != 3 ==> fs[i].ty != Matrix)
      && fs[5].name == "lightDir" && CppOffset(fs, 5) == 224
      && fs[6].name == "shadowBias" && CppOffset(fs, 6) == 236
      && CppOffset(fs, 5) / REGISTER_SIZE == CppOffset(fs, 6) / REGISTER_SIZE
      && NoStraddle(fs) && WholeRegisterArrays(fs)
      && HlslSize(fs) == CppSize(fs)
      && forall i :: 0 <= i < |fs| ==> HlslOffset(fs, i) == CppOffset(fs, i)
  {
    var fs := PerFrameBufferType();
    PerFrameLayoutOffsets();
    forall i | 0 <= i < |fs|
      ensures FitsAt(fs, i) && WholeRegisters(fs[i])
    {
      assert i == 0 || i == 1 || i == 2 || i == 3 || i == 4 || i == 5 || i == 6 || i == 7 || i == 8 || i == 9;
    }
    LayoutsCoincide(fs);
  }

  /** The C++ offsets of `PerFrameBufferType`, field by field. */
  lemma PerFrameLayoutOffsets()
    ensures var fs := PerFrameBufferType();
      && CppOffset(fs, 0) == 0
      && CppOffset(fs, 1) == 8
      && CppOffset(fs, 2) == 12
      && CppOffset(fs, 3) == 16
      && CppOffset(fs, 4) == 208
      && CppOffset(fs, 5) == 224
      && CppOffset(fs, 6) == 236
      && CppOffset(fs, 7) == 240
      && CppOffset(fs, 8) == 244
      && CppOffset(fs, 9) == 248
      && CppOffset(fs, 10) == 256
  {
  }

  /**
    The per-material buffer: 64 bytes, the trailing `padding` completing
    its last register, and no field straddling a register.
   */
  lemma PerMaterialLayout()
    ensures var fs := PerMaterialBufferType();
      && CppSize(fs) == 64 && CppSize(fs) % REGISTER_SIZE == 0
      && fs[9].name == "padding" && CppOffset(fs, 9) == 56
      && CppOffset(fs, 9) + FieldSize(fs[9]) == 64
      && NoStraddle(fs) && WholeRegisterArrays(fs)
      && HlslSize(fs) == CppSize(fs)
      && forall i :: 0 <= i < |fs| ==> HlslOffset(fs, i) == CppOffset(fs, i)
  {
    var fs := PerMaterialBufferType();
    PerMaterialLayoutOffsets();
    forall i | 0 <= i < |fs|
      ensures FitsAt(fs, i) && WholeRegisters(fs[i])
    {
      assert i == 0 || i == 1 || i == 2 || i == 3 || i == 4 || i == 5 || i == 6 || i == 7 || i == 8 || i == 9;
    }
    LayoutsCoincide(fs);
  }

  /** The C++ offsets of `PerMaterialBufferType`, field by field. */
  lemma PerMaterialLayoutOffsets()
    ensures var fs := PerMaterialBufferType();
      && CppOffset(fs, 0) == 0
      && CppOffset(fs, 1) == 16
      && CppOffset(fs, 2) == 24
      && CppOffset(fs, 3) == 32
      && CppOffset(fs, 4) == 36
      && CppOffset(fs, 5) == 40
      && CppOffset(fs, 6) == 44
      && CppOffset(fs, 7) == 48
      && CppOffset(fs, 8) == 52
      && CppOffset(fs, 9) == 56
      && CppOffset(fs, 10) == 64
  {
  }

  /**
    The per-object buffer: 208 bytes, three matrices, `receiveShadows`
    at 192 and the `Vector3` padding filling its register, with no field
    straddling a register.
   */
  lemma PerObjectLayout()
    ensures var fs := PerObjectBufferType();
      && CppSize(fs) == 208 && CppSize(fs) % REGISTER_SIZE == 0
      && (forall i :: 0 <= i < 3 ==> fs[i].ty == Matrix && fs[i].count == 1)
      && fs[3].name == "receiveShadows" && CppOffset(fs, 3) == 192
      && NoStraddle(fs) && WholeRegisterArrays(fs)
      && HlslSize(fs) == CppSize(fs)
      && forall i :: 0 <= i < |fs| ==> HlslOffset(fs, i) == CppOffset(fs, i)
  {
    var fs := PerObjectBufferType();
    PerObjectLayoutOffsets();
    forall i | 0 <= i < |fs|
      ensures FitsAt(fs, i) && WholeRegisters(fs[i])
    {
      assert i == 0 || i == 1 || i == 2 || i == 3 || i == 4;
    }
    LayoutsCoincide(fs);
  }

  /** The C++ offsets of `PerObjectBufferType`, field by field. */
  lemma PerObjectLayoutOffsets()
    ensures var fs := PerObjectBufferType();
      && CppOffset(fs, 0) == 0
      && CppOffset(fs, 1) == 64
      && CppOffset(fs, 2) == 128
      && CppOffset(fs, 3) == 192
      && CppOffset(fs, 4) == 196
      && CppOffset(fs, 5) == 208
  {
  }
}

=== FILE: wrappers.dfy ===
/** Optional values, used wherever the engine returns "nothing" (no match, an unset buffer field). */
module Wrappers {

  datatype Option<+T> = None | Some(value: T)
}
